=== FILE: README.md ===
# MiniTabBar in Dafny

A model of MiniTabBar, a bottom tab bar widget for iOS. The bar holds a row of
item views. Each item view shows either a title, an icon and an optional badge,
or a host-supplied custom view. The model covers:

- the bar's selection state machine and its `tabSelected` delegate callbacks;
- replacing the item list, which forces the sentinel index -1;
- hiding and showing the bar, and its equal-width layout;
- per-item badge changes;
- the property observers (`titleState`, `colored`, `uncoloredBackgroundColor`,
  `tintColor`, `inactiveColor`, `font`) that fan out to the item views and to
  the bar's background;
- for each item view: item validation at construction, the layout table for
  title, icon and badge, the selection and deselection end states, the badge
  animation end state, and custom-view centring.

The model is purely functional. `Bar` and `ItemView` are immutable records. Each
operation is a function that returns the new state. `SelectItem` also returns
the delegate notifications it sent. Every `UIView.animate` block is replaced by
the values it ends at. The one ordering kept is the badge change: fade out,
then swap the text, then fade in. Colours, images, fonts and custom views are
opaque tokens compared by identity. Coordinates are exact `real`s.

Files:

- `wrappers.dfy` defines `Option` and `Result`.
- `geometry.dfy` defines rectangles.
- `items.dfy` defines `MiniTabBarItem`, `MiniTabBarBadge` and `TitleState`.
- `item_view.dfy` models `MiniTabBarItemView`.
- `tab_bar.dfy` models `MiniTabBar`.
- `scenarios.dfy` holds two concrete runs.

Behaviour of the code that the model keeps as written:

- The bar's two loops (over the views in `selectItem` and in the `titleState`
  observer) are modelled as one recursive pass, `TabBar.Sweep`. It visits the
  views in order and threads the bar background through them. Only the view
  that is selected with animation writes the background.
- New views built by `setItems` inherit the bar's tint. They do not get the
  bar's inactive colour or font, because the source never passes those on.
- `changeBadgeItem` changes only the badge label's text. It leaves the badge
  value stored in the item unchanged.
- A badge label is added to the view only when the item's badge value is
  non-empty at construction. A later `setBadge` on a view without one changes
  a label that is never shown.
- `setFrames` always puts a view's frames on its title mode's resting row.
  Under ShowWhenActive, a later layout pass therefore drops the selected view's
  title again. Only the `titleState` observer and an animated `selectItem`
  raise it (`TabBar.SetTitleState`, `TabBar.SelectKeepsFramesSettled`).
- `setItems` deselects through `selectItem(-1)` while the current index still
  names the old selection. Under ShowWhenActive the new view at that index is
  therefore lowered from its zero frames (`TabBar.SetItems`).
- An animated selection in colored mode copies the item's optional bar colour
  into the background. That can be nil. The `colored` observer instead
  force-unwraps the bar colour. Here that is the error `MissingBarColor`.
- The source rejects a malformed item with a debug `assert`. Here that is the
  error `ConfigError`.

## Model

| member | source | states |
|---|---|---|
| Items.TitledItem | MiniTabBar/Classes/MiniTabBar.swift:35-40 | the title-and-icon initialiser yields a selectable item that satisfies the title-or-custom-view rule and has a bar colour |
| Items.CustomItem | MiniTabBar/Classes/MiniTabBar.swift:41-44 | the custom-view initialiser yields a selectable item that satisfies the rule, with no badge and no bar colour |
| ItemViews.WithFallbackSize | MiniTabBar/Classes/MiniTabBarItemView.swift:52-54 | a custom view whose width or height is not positive becomes 50×50 with the same origin; any other view is left unchanged |
| ItemViews.InitialBadge | MiniTabBar/Classes/MiniTabBarItemView.swift:71-82 | the badge label is added exactly when the item has a badge with a non-empty value, and then shows that value |
| ItemViews.Make | MiniTabBar/Classes/MiniTabBarItemView.swift:14-84 | construction succeeds iff the item has a custom view with no title or icon, or a title and an icon; each kind of violation gets its own error; a new view is unselected, inherits the tint, has no inactive colour, and starts with zero frames for title, icon and badge; a custom view is hosted at its fallback size with an unattached badge label, the default title font and no colours; a title-and-icon view shows the item's title and icon, the built badge label, the default title font, and the tint as title colour, with the icon colour inherited; the badge is visible iff a non-empty badge exists |
| ItemViews.Table | MiniTabBar/Classes/MiniTabBarItemView.swift:103-120 | the icon is 25×25 at x = w/2 − 13, the badge 12×12 at x = w/2 + 6, and the title full width, 14 high, at x = 0; the y values of icon, badge and title are 5, 2.5, 28 under AlwaysShow and 12, 6, h otherwise |
| ItemViews.HideModesShareTable | MiniTabBar/Classes/MiniTabBarItemView.swift:106-117 | ShowWhenActive and AlwaysHide give identical frames, and these differ from AlwaysShow |
| ItemViews.SetFrames | MiniTabBar/Classes/MiniTabBarItemView.swift:103-120 | the frames become the table row for the view's own size, and nothing else changes (so the colour invariant is kept) |
| ItemViews.RaisedIsAlwaysShowRow | MiniTabBar/Classes/MiniTabBarItemView.swift:184-200 | the positions an animated selection moves to reproduce the AlwaysShow row of the table |
| ItemViews.LoweredIsRestingRow | MiniTabBar/Classes/MiniTabBarItemView.swift:155-169 | the positions an animated deselection moves to reproduce the ShowWhenActive row of the table |
| ItemViews.LayoutSubviews | MiniTabBar/Classes/MiniTabBarItemView.swift:91-99 | the same custom view is centred at (w/2 + dx, h/2 + dy) at unchanged size, with nothing else changed; a title-and-icon view recomputes its frames |
| ItemViews.SetSelected | MiniTabBar/Classes/MiniTabBarItemView.swift:174-213 | sets the selected flag and colours icon and title with the tint if selected, else with the inactive colour; only an animated selection under ShowWhenActive moves frames; only an animated selection sets the bar background, to the item's bar colour when colored and to the uncolored background otherwise |
| ItemViews.DeSelected | MiniTabBar/Classes/MiniTabBarItemView.swift:148-173 | moves icon, badge and title to y 12, 6, h only when the view was selected, the change is animated and the mode is ShowWhenActive; otherwise nothing changes |
| ItemViews.SelectThenDeselectRestores | MiniTabBar/Classes/MiniTabBarItemView.swift:148-200 | under ShowWhenActive an animated selection raises a resting view to the AlwaysShow row, and an animated deselection returns it to where it was |
| ItemViews.FadeScaleOut | MiniTabBar/Classes/MiniTabBarItemView.swift:139-142 | the badge goes to alpha 0 and inverted, so it is not visible; its text is kept |
| ItemViews.FadeScaleIn | MiniTabBar/Classes/MiniTabBarItemView.swift:143-146 | the badge becomes opaque and upright, so it is visible iff the label is in the view |
| ItemViews.SetBadge | MiniTabBar/Classes/MiniTabBarItemView.swift:122-137 | a non-empty value ends with that text at alpha 1 and the identity transform; the empty value only sets alpha to 0; the badge is visible afterwards iff its label is in the view and the value is non-empty |
| ItemViews.BadgeReappears | MiniTabBar/Classes/MiniTabBarItemView.swift:122-146 | setting the badge to empty hides it, and a following non-empty value shows exactly that value, opaque and upright |
| ItemViews.SetTint | MiniTabBar/Classes/MiniTabBarItemView.swift:22-29 | a selected view takes the new tint on icon and title; an unselected one only stores it; nothing else changes, so the colour invariant is kept |
| ItemViews.SetInactive | MiniTabBar/Classes/MiniTabBarItemView.swift:30-37 | an unselected view takes the new inactive colour on icon and title; a selected one only stores it; nothing else changes, so the colour invariant is kept |
| ItemViews.SetFont | MiniTabBar/Classes/MiniTabBarItemView.swift:38-43 | the title uses the given font, or the size-12 system font when none is given |
| TabBar.Step | MiniTabBar/Classes/MiniTabBar.swift:197-200 | one loop step leaves the view selected exactly when the pass targets it, keeps colours consistent, and writes the background only for the animated selection of that view; in the selection loop an animated ShowWhenActive step lowers the previous view and raises the target, and any other step keeps frames; in the title-mode loop the view takes its table row, raised if it is current under ShowWhenActive |
| TabBar.Sweep | MiniTabBar/Classes/MiniTabBar.swift:210-213 | the loop over all views changes each unvisited view by its own step, leaves visited positions alone, and ends with the background of the one animated selection in range, or the old background if there is none |
| TabBar.Reselection | MiniTabBar/Classes/MiniTabBar.swift:210-214 | the selection loop leaves only view i selected, with consistent colours, the background of an animated selection of i, and frames moved only when animated under ShowWhenActive (target raised, previous lowered); everything else in each view is kept |
| TabBar.MakeViews | MiniTabBar/Classes/MiniTabBar.swift:127-134 | builds one view per item in order; fails iff some item is malformed, and then reports the error of the first malformed item |
| TabBar.New | MiniTabBar/Classes/MiniTabBar.swift:115-136 | a new bar has one view per item, each built by the item view's constructor with the bar's tint; it stores the given title mode and tint, has no selection, colored off, the default uncolored background as both uncolored colour and background, no inactive colour or font, a zero frame, recorded y 0, and is shown |
| TabBar.SelectItem | MiniTabBar/Classes/MiniTabBar.swift:195-216 | notifies `tabSelected(i)` exactly once iff i is in range, selectable and not current; an out-of-range i is stored verbatim with every view deselected and no notification; a non-selectable or current i changes nothing; a genuine change leaves exactly view i selected and sets the background as the animated selection does; after a reselection pass every view has consistent colours and differs only in its selected flag, colours and frames; frames move only when animated under ShowWhenActive, where the new view is raised and the previous one lowered; "exactly the current view is selected" is preserved |
| TabBar.ItemTapped | MiniTabBar/Classes/MiniTabBar.swift:189-193 | a tap on view i notifies iff that item is selectable and not current, and makes a selectable item current; a notifying tap selects with animation, so exactly view i is selected, every view keeps consistent colours, and the background is the one an animated selection sets; every view differs from its old self only in selection, colours and frames, and the bar only in its views, current index and background; a tap that notifies nothing leaves the bar unchanged |
| TabBar.SetItems | MiniTabBar/Classes/MiniTabBar.swift:157-171 | yields one view per item in the same order, each the item view's constructor result for the bar's tint, with colours reset to the nil inactive colour; the current index is -1 and no view is selected; new views carry no inactive colour or font and zero frames, except that under ShowWhenActive the new view at the old current index is lowered; all other bar fields are kept |
| TabBar.Hide | MiniTabBar/Classes/MiniTabBar.swift:138-146 | a shown bar records its y and moves down by its height; a hidden bar is unchanged |
| TabBar.Show | MiniTabBar/Classes/MiniTabBar.swift:148-155 | a hidden bar returns to the recorded y; a shown bar is unchanged |
| TabBar.HideIdempotent | MiniTabBar/Classes/MiniTabBar.swift:138-146 | hiding twice is the same as hiding once |
| TabBar.ShowIdempotent | MiniTabBar/Classes/MiniTabBar.swift:148-155 | showing twice is the same as showing once |
| TabBar.ShowUndoesHide | MiniTabBar/Classes/MiniTabBar.swift:138-155 | hiding then showing a shown bar restores its frame |
| TabBar.Layout | MiniTabBar/Classes/MiniTabBar.swift:177-187 | view i gets the frame (W/n·i, 0, W/n, H), and nothing else changes |
| TabBar.SlicesAbut | MiniTabBar/Classes/MiniTabBar.swift:182-186 | slice i − 1 ends where slice i begins |
| TabBar.LastSliceEndsAtWidth | MiniTabBar/Classes/MiniTabBar.swift:182-186 | the last slice ends at W, and n slices make up the width |
| TabBar.SlicesTile | MiniTabBar/Classes/MiniTabBar.swift:182-186 | after layout the slices start at 0, have equal widths and full height, abut, and end at the bar's width |
| TabBar.ChangeBadgeItem | MiniTabBar/Classes/MiniTabBar.swift:218-224 | only view k gets the new badge value; an out-of-range k changes nothing |
| TabBar.ChangeBadgeShowsValue | MiniTabBar/Classes/MiniTabBar.swift:218-224 | clearing a tab's badge and then setting a value shows exactly that value on that tab, and leaves every other tab and the selection as they were |
| TabBar.Restyling | MiniTabBar/Classes/MiniTabBar.swift:57-60 | the title-mode loop puts every view on its table row for the new mode (the current view raised under ShowWhenActive), selects exactly the current view, keeps colours consistent and every other field of each view |
| TabBar.SetTitleState | MiniTabBar/Classes/MiniTabBar.swift:55-62 | every view recomputes its frames and is reselected: selected iff current, colours consistent, all frames on their table rows (the current view on the AlwaysShow row under ShowWhenActive), and the background set by the current view's animated selection if the index is valid; each view otherwise keeps its badge, tint, inactive colour, font, content and frame |
| TabBar.SetTint | MiniTabBar/Classes/MiniTabBar.swift:63-69 | every view goes through the item view's tint observer: it takes the new tint, and its selection, frames, badge and the colour invariant are kept |
| TabBar.SetInactive | MiniTabBar/Classes/MiniTabBar.swift:89-95 | every view goes through the item view's inactive-colour observer: it takes the new colour, and its selection, frames, badge and the colour invariant are kept |
| TabBar.SetFont | MiniTabBar/Classes/MiniTabBar.swift:96-102 | every title takes the new font, or the default one when none is given |
| TabBar.SetUncolored | MiniTabBar/Classes/MiniTabBar.swift:82-88 | a new uncolored background applies at once when not colored and is only stored when colored |
| TabBar.UncoloredAppliesWhenUncolored | MiniTabBar/Classes/MiniTabBar.swift:77-87 | a new uncolored background shows at once when not colored, and is the background as soon as colored mode is turned off |
| TabBar.SetColoredAsWritten | MiniTabBar/Classes/MiniTabBar.swift:70-81 | the source's observer: turning colored off restores the uncolored background; turning it on with a stored out-of-range index traps |
| TabBar.SetColored | MiniTabBar/Classes/MiniTabBar.swift:70-81 | turning colored on paints the valid current item's bar colour, fails only when that colour is missing, and otherwise keeps the background; turning it off restores the uncolored background |
| TabBar.ColoredAgreesOnValidIndex | MiniTabBar/Classes/MiniTabBar.swift:70-81 | the corrected observer and the source's agree whenever the current index is absent or valid |
| TabBar.SentinelTrapsColoredAsWritten | MiniTabBar/Classes/MiniTabBar.swift:73-74 | after setItems, turning colored on with the source's observer indexes view -1 |
| TabBar.SentinelIsSafeForColored | MiniTabBar/Classes/MiniTabBar.swift:73-74 | after setItems, the corrected observer turns colored on and keeps the background |
| TabBar.SelectTwiceNotifiesOnce | MiniTabBar/Classes/MiniTabBar.swift:207-209 | two consecutive selections of the same index notify at most once, and the second never notifies |
| TabBar.SelectKeepsFramesSettled | MiniTabBar/Classes/MiniTabBar.swift:210-213 | an animated selection keeps every view's frames on its table row: the new view rises and the old one drops back |
| TabBar.Taps | MiniTabBar/Classes/MiniTabBar.swift:189-193 | a run of taps on the bar's views keeps its item list |
| TabBar.TapLogSound | MiniTabBar/Classes/MiniTabBar.swift:204-215 | over any run of taps the delegate hears at most once per tap and only of selectable items, first of one that was not current, and a run with no notification changes nothing |
| TabBar.TapLog | MiniTabBar/Classes/MiniTabBar.swift:207-215 | over any run of taps the delegate never hears of the same item twice in a row, and the last item it heard of is the current one |
| Scenarios.SkippingANonSelectableTab | MiniTabBar/Classes/MiniTabBar.swift:195-216 | with tabs A, B (not selectable) and C, selecting 0, 1, 2 notifies 0, nothing, then 2, and ends with C selected and A not |
| Scenarios.ColoredFollowsSelection | MiniTabBar/Classes/MiniTabBar.swift:70-81 | in colored mode, selecting C paints the bar with C's colour; leaving colored mode restores the uncolored background |

## Left out

- Animation durations, curves, in-flight interpolation and completion scheduling. Each animation becomes its final values.
- The blur backdrop (`backgroundBlurEnabled`), the key line, badge styling (font, corner radius, colours) and the `init(coder:)` stubs. These are rendering with no logic. `setItems` also removes the backdrop and the key line from the bar. Since those layers are not modelled, neither is that removal.
- Gesture-recognizer plumbing. A tap is given as the index of the tapped view.
- Whether a delegate is attached. `SelectItem` returns the calls made through the weak delegate slot.
- When UIKit runs layout passes. The bar's `Layout` and the item view's `LayoutSubviews` are separate operations.
- UIKit's tint inheritance. A new item view takes the bar's tint when it is built. In the source the title colour is set from the view's tint before the view joins the bar (MiniTabBarItemView.swift:61, MiniTabBar.swift:129-132 and 164-167). At that moment UIKit answers with its default tint, so a new title shows the default tint until the first selection. `ItemViews.Make` gives it the bar's tint instead.
- Frame sizes are taken as non-negative, and `CGRect` standardization is not modelled. In the source `frame.width` is the absolute width, so only a zero side triggers the 50×50 fallback. `ItemViews.WithFallbackSize` also resizes a negative side.
- Items as shared references. The host can change `selectable` and `barBackgroundColor` on a live item, and `selectItem` reads them at call time (MiniTabBar.swift:33-34, 204). The model takes a snapshot of each item when its view is built.
- Assigning nil to `uncoloredBackgroundColor`. It is modelled as always set.
- Release builds. There Swift's `assert` is compiled out, so a malformed item is not rejected. The model keeps the debug behaviour as an error.
- TabBar.SetColoredAsWritten: the contract covers only the off case, the absent index and the out-of-range index. For a valid index it equals TabBar.SetColored, which `TabBar.ColoredAgreesOnValidIndex` proves.

## Findings

| source | as written | input that shows it | evidently intended | confidence | as-written member | corrected member |
|---|---|---|---|---|---|---|
| MiniTabBar/Classes/MiniTabBar.swift:73-74 | the `colored` observer checks only that the current index is non-nil, then indexes the item views with it | `setItems(xs)` stores index -1, then `colored = true` reads `itemViews[-1]` | treat an index outside the item list as "no selection" and leave the background alone | high; not executed | TabBar.SetColoredAsWritten (shown by TabBar.SentinelTrapsColoredAsWritten) | TabBar.SetColored (TabBar.SentinelIsSafeForColored) |

=== FILE: geometry.dfy ===
/** Rectangles and points in a view's coordinate space, with exact `real`
    coordinates in place of floating-point `CGFloat`. */
module Geometry {

  datatype Point = Point(x: real, y: real)

  /** A rectangle given by its origin and size (a `CGRect`). */
  datatype Rect = Rect(x: real, y: real, width: real, height: real) {

    /** The right-hand edge. */
    function MaxX(): real {
      x + width
    }

    function Center(): Point {
      Point(x + width / 2.0, y + height / 2.0)
    }

    /** The same-sized rectangle moved so that its centre is `c`
        (assigning a view's `center`). */
    function WithCenter(c: Point): (r: Rect)
      ensures r.Center() == c
      ensures r.width == width && r.height == height
    {
      Rect(c.x - width / 2.0, c.y - height / 2.0, width, height)
    }
  }

  /** `CGRect.zero`, the frame every view starts with. */
  const Zero := Rect(0.0, 0.0, 0.0, 0.0)
}

=== FILE: item_view.dfy ===
/** One tab's view: validation of its item, the layout table for title,
    icon and badge, the end states of its selection and badge animations,
    and the colour observers. Every animation is replaced by the values it
    ends at. */
module ItemViews {
  import opened Wrappers
  import opened Geometry
  import opened Items

  /** Title font used while the bar sets none (system font, size 12). */
  const DefaultTitleFont := SystemFont(12)

  /** Side of the square a custom view is given when it has no size. */
  const FallbackSide := 50.0

  /** The two ways an item can break the title-or-custom-view rule. */
  datatype ConfigError = CustomViewWithTitleOrIcon | MissingTitleOrIcon

  /** The badge label's affine transform: identity, or the point reflection
      `scale(-1, -1)` used while it is faded out. */
  datatype Transform = Identity | Inverted

  /** The badge label: whether it was added to the view at all, its text,
      opacity and transform. */
  datatype BadgeLabel = BadgeLabel(attached: bool, text: string, alpha: real, transform: Transform)

  /** Frames of the title label, the icon and the badge label, in the item
      view's own coordinates. */
  datatype Frames = Frames(title: Rect, icon: Rect, badge: Rect)

  /** What the view hosts: title label and icon, or a custom view. */
  datatype Content = Standard(title: string, icon: Image) | Hosted(view: CustomView)

  datatype ItemView = ItemView(
    item: Item,
    content: Content,
    frame: Rect,              // assigned by the bar's layout
    selected: bool,
    tint: Color,
    inactive: Option<Color>,
    iconColor: Option<Color>, // None: the icon inherits its tint
    titleColor: Option<Color>,
    font: Option<Font>,
    titleFont: Font,
    frames: Frames,
    badge: BadgeLabel)

  /** What an item view reads from, and writes to, its bar. */
  datatype Host = Host(titleState: TitleState, colored: bool, uncolored: Color, background: Option<Color>)

  /** An item view after a step, with the bar background that step leaves. */
  datatype Effect = Effect(view: ItemView, background: Option<Color>)

  /** Icon and title show the tint when selected, the inactive colour otherwise. */
  predicate ColoursConsistent(v: ItemView) {
    var shown := if v.selected then Some(v.tint) else v.inactive;
    v.iconColor == shown && v.titleColor == shown
  }

  predicate BadgeVisible(v: ItemView) {
    v.badge.attached && v.badge.alpha > 0.0
  }

  /** The custom view's frame once hosted: a view with a non-positive width
      or height is resized to the fallback square, keeping its origin. */
  function WithFallbackSize(cv: CustomView): (r: CustomView)
    ensures r.id == cv.id && r.frame.x == cv.frame.x && r.frame.y == cv.frame.y
    ensures r.frame.width > 0.0 && r.frame.height > 0.0
    ensures cv.frame.width > 0.0 && cv.frame.height > 0.0 ==> r == cv
    ensures !(cv.frame.width > 0.0 && cv.frame.height > 0.0) ==>
              r.frame.width == FallbackSide && r.frame.height == FallbackSide
  {
    if cv.frame.width <= 0.0 || cv.frame.height <= 0.0 then
      cv.(frame := cv.frame.(width := FallbackSide, height := FallbackSide))
    else cv
  }

  /** The badge label as built: added only for a badge with a non-empty value. */
  function InitialBadge(badge: Option<Badge>): (r: BadgeLabel)
    ensures r.attached <==> badge.Some? && badge.value.value != ""
    ensures r.attached ==> r.text == badge.value.value
    ensures r.alpha == 1.0 && r.transform == Identity
  {
    if badge.Some? && badge.value.value != "" then BadgeLabel(true, badge.value.value, 1.0, Identity)
    else BadgeLabel(false, "", 1.0, Identity)
  }

  function Fresh(item: Item, content: Content, tint: Color, badge: BadgeLabel): ItemView {
    var titleColor := if content.Standard? then Some(tint) else None;
    ItemView(item, content, Zero, false, tint, None, None, titleColor, None, DefaultTitleFont,
             Frames(Zero, Zero, Zero), badge)
  }

  /** Builds the view for `item`, rejecting an item that sets both a custom
      view and a title or icon, or sets neither. `tint` is the bar's tint,
      which a new view inherits. */
  function Make(item: Item, tint: Color): (r: Result<ItemView, ConfigError>)
    ensures r.Ok? <==> WellFormed(item)
    ensures item.customView.Some? && !WellFormed(item) ==> r == Err(CustomViewWithTitleOrIcon)
    ensures item.customView.None? && !WellFormed(item) ==> r == Err(MissingTitleOrIcon)
    ensures r.Ok? ==> r.value.item == item && !r.value.selected && r.value.frame == Zero
    ensures r.Ok? ==> r.value.tint == tint && r.value.inactive.None? && r.value.font.None?
    ensures r.Ok? ==> (r.value.content.Hosted? <==> item.customView.Some?)
    ensures r.Ok? ==> r.value.frames == Frames(Zero, Zero, Zero)
    ensures r.Ok? && item.customView.Some? ==>
              r.value.content.view == WithFallbackSize(item.customView.value)
              && r.value.badge == BadgeLabel(false, "", 1.0, Identity)
              && r.value.titleFont == DefaultTitleFont
              && r.value.titleColor.None? && r.value.iconColor.None?
    ensures r.Ok? && item.customView.None? ==>
              r.value.content == Standard(item.title.value, item.icon.value)
              && r.value.badge == InitialBadge(item.badge)
              && r.value.titleFont == DefaultTitleFont
              && r.value.titleColor == Some(tint) && r.value.iconColor.None?
    ensures r.Ok? ==> (BadgeVisible(r.value) <==>
                         item.customView.None? && item.badge.Some? && item.badge.value.value != "")
  {
    match item.customView
    case Some(cv) =>
      if item.title.Some? || item.icon.Some? then Err(CustomViewWithTitleOrIcon)
      else Ok(Fresh(item, Hosted(WithFallbackSize(cv)), tint, BadgeLabel(false, "", 1.0, Identity)))
    case None =>
      if item.title.None? || item.icon.None? then Err(MissingTitleOrIcon)
      else Ok(Fresh(item, Standard(item.title.value, item.icon.value), tint, InitialBadge(item.badge)))
  }

  /** The layout table: the frames of title, icon and badge in a view of
      width `w` and height `h` under each title mode. */
  function Table(ts: TitleState, w: real, h: real): (r: Frames)
    ensures r.icon == r.icon.(x := w / 2.0 - 13.0, width := 25.0, height := 25.0)
    ensures r.badge == r.badge.(x := w / 2.0 + 6.0, width := 12.0, height := 12.0)
    ensures r.title == r.title.(x := 0.0, width := w, height := 14.0)
    ensures ts == AlwaysShow ==> r.icon.y == 5.0 && r.badge.y == 2.5 && r.title.y == 28.0
    ensures ts != AlwaysShow ==> r.icon.y == 12.0 && r.badge.y == 6.0 && r.title.y == h
  {
    match ts
    case ShowWhenActive =>
      Frames(Rect(0.0, h, w, 14.0), Rect(w / 2.0 - 13.0, 12.0, 25.0, 25.0), Rect(w / 2.0 + 6.0, 6.0, 12.0, 12.0))
    case AlwaysShow =>
      Frames(Rect(0.0, 28.0, w, 14.0), Rect(w / 2.0 - 13.0, 5.0, 25.0, 25.0), Rect(w / 2.0 + 6.0, 2.5, 12.0, 12.0))
    case AlwaysHide =>
      Frames(Rect(0.0, h, w, 14.0), Rect(w / 2.0 - 13.0, 12.0, 25.0, 25.0), Rect(w / 2.0 + 6.0, 6.0, 12.0, 12.0))
  }

  /** The title modes that hide an inactive title lay out identically. */
  lemma HideModesShareTable(w: real, h: real)
    ensures Table(ShowWhenActive, w, h) == Table(AlwaysHide, w, h)
    ensures Table(ShowWhenActive, w, h) != Table(AlwaysShow, w, h)
  {
  }

  /** Recomputes the three frames from the view's size and the title mode;
      selection, colours and badge are left alone. */
  function SetFrames(v: ItemView, ts: TitleState): (r: ItemView)
    ensures r.frames == Table(ts, v.frame.width, v.frame.height)
    ensures r.(frames := v.frames) == v
    ensures ColoursConsistent(r) == ColoursConsistent(v)
  {
    v.(frames := Table(ts, v.frame.width, v.frame.height))
  }

  /** Title, icon and badge moved up to their shown positions. */
  function Raised(f: Frames): Frames {
    Frames(f.title.(y := 28.0), f.icon.(y := 5.0), f.badge.(y := 2.5))
  }

  /** Title, icon and badge moved back to their resting positions, the title
      to the bottom edge `h` of the view. */
  function Lowered(f: Frames, h: real): Frames {
    Frames(f.title.(y := h), f.icon.(y := 12.0), f.badge.(y := 6.0))
  }

  /** Raising any row of the table lands on the AlwaysShow row. */
  lemma RaisedIsAlwaysShowRow(ts: TitleState, w: real, h: real)
    ensures Raised(Table(ts, w, h)) == Table(AlwaysShow, w, h)
  {
  }

  /** Lowering any row of the table lands on the ShowWhenActive row. */
  lemma LoweredIsRestingRow(ts: TitleState, w: real, h: real)
    ensures Lowered(Table(ts, w, h), h) == Table(ShowWhenActive, w, h)
  {
  }

  /** Centres a custom view in the item view, displaced by the item's
      offset; a title-and-icon view recomputes its frames instead. */
  function LayoutSubviews(v: ItemView, ts: TitleState): (r: ItemView)
    ensures r.content.Hosted? <==> v.content.Hosted?
    ensures v.content.Hosted? ==>
              r == v.(content := r.content)
              && r.content.view.id == v.content.view.id
              && r.content.view.frame.Center()
                 == Point(v.frame.width / 2.0 + v.item.offset.horizontal,
                          v.frame.height / 2.0 + v.item.offset.vertical)
              && r.content.view.frame.width == v.content.view.frame.width
              && r.content.view.frame.height == v.content.view.frame.height
    ensures v.content.Standard? ==> r == SetFrames(v, ts)
  {
    match v.content
    case Hosted(cv) =>
      var c := Point(v.frame.width / 2.0 + v.item.offset.horizontal, v.frame.height / 2.0 + v.item.offset.vertical);
      v.(content := Hosted(cv.(frame := cv.frame.WithCenter(c))))
    case Standard(_, _) => SetFrames(v, ts)
  }

  /** The bar's background once an animated selection of `item` ends: the
      item's bar colour in colored mode, the uncolored background otherwise. */
  function RaisedBackground(item: Item, host: Host): Option<Color> {
    if host.colored then item.barBackgroundColor else Some(host.uncolored)
  }

  /** Marks the view selected or not and recolours icon and title. An
      animated selection under ShowWhenActive raises title, icon and badge,
      and an animated selection sets the bar's background. */
  function SetSelected(v: ItemView, selected: bool, animated: bool, host: Host): (r: Effect)
    ensures r.view.selected == selected && ColoursConsistent(r.view)
    ensures r.view == v.(selected := selected, iconColor := r.view.iconColor,
                         titleColor := r.view.titleColor, frames := r.view.frames)
    ensures selected && animated && host.titleState == ShowWhenActive ==> r.view.frames == Raised(v.frames)
    ensures !(selected && animated && host.titleState == ShowWhenActive) ==> r.view.frames == v.frames
    ensures r.background == if selected && animated then RaisedBackground(v.item, host) else host.background
  {
    var shown := if selected then Some(v.tint) else v.inactive;
    var recoloured := v.(selected := selected, iconColor := shown, titleColor := shown);
    if animated && selected then
      var moved := if host.titleState == ShowWhenActive then recoloured.(frames := Raised(v.frames)) else recoloured;
      Effect(moved, RaisedBackground(v.item, host))
    else Effect(recoloured, host.background)
  }

  /** The mirror of an animated selection: a view that was selected moves
      title, icon and badge back down under ShowWhenActive. Selection flag
      and colours are left to `SetSelected`. */
  function DeSelected(v: ItemView, wasSelected: bool, animated: bool, ts: TitleState): (r: ItemView)
    ensures wasSelected && animated && ts == ShowWhenActive ==> r.frames == Lowered(v.frames, v.frame.height)
    ensures !(wasSelected && animated && ts == ShowWhenActive) ==> r == v
    ensures r.(frames := v.frames) == v
  {
    if wasSelected && animated && ts == ShowWhenActive then v.(frames := Lowered(v.frames, v.frame.height))
    else v
  }

  /** Under ShowWhenActive, an animated selection followed by an animated
      deselection puts a resting view's frames back where they were. */
  lemma SelectThenDeselectRestores(v: ItemView, host: Host)
    requires host.titleState == ShowWhenActive
    requires v.frames == Table(ShowWhenActive, v.frame.width, v.frame.height)
    ensures DeSelected(SetSelected(v, true, true, host).view, true, true, ShowWhenActive).frames == v.frames
    ensures SetSelected(v, true, true, host).view.frames == Table(AlwaysShow, v.frame.width, v.frame.height)
  {
  }

  /** First phase of a badge change: fade out while inverted. */
  function FadeScaleOut(v: ItemView): (r: ItemView)
    ensures !BadgeVisible(r) && r.badge.alpha == 0.0 && r.badge.transform == Inverted
    ensures r == v.(badge := v.badge.(alpha := r.badge.alpha, transform := r.badge.transform))
  {
    v.(badge := v.badge.(alpha := 0.0, transform := Inverted))
  }

  /** Second phase of a badge change: fade back in, upright. */
  function FadeScaleIn(v: ItemView): (r: ItemView)
    ensures BadgeVisible(r) <==> v.badge.attached
    ensures r.badge.alpha == 1.0 && r.badge.transform == Identity
    ensures r == v.(badge := v.badge.(alpha := r.badge.alpha, transform := r.badge.transform))
  {
    v.(badge := v.badge.(alpha := 1.0, transform := Identity))
  }

  /** Shows a new badge value (out phase, text swap on completion, in
      phase), or fades the badge out for the empty value. */
  function SetBadge(v: ItemView, value: string): (r: ItemView)
    ensures r == v.(badge := r.badge) && r.badge.attached == v.badge.attached
    ensures value != "" ==> r.badge.text == value && r.badge.alpha == 1.0 && r.badge.transform == Identity
    ensures value == "" ==> r.badge == v.badge.(alpha := 0.0)
    ensures BadgeVisible(r) <==> v.badge.attached && value != ""
  {
    if value != "" then
      var out := FadeScaleOut(v);
      FadeScaleIn(out.(badge := out.badge.(text := value)))
    else v.(badge := v.badge.(alpha := 0.0))
  }

  /** Hiding the badge and then setting a value shows exactly that value. */
  lemma BadgeReappears(v: ItemView, value: string)
    requires v.badge.attached && value != ""
    ensures !BadgeVisible(SetBadge(v, ""))
    ensures BadgeVisible(SetBadge(SetBadge(v, ""), value))
    ensures SetBadge(SetBadge(v, ""), value).badge == BadgeLabel(true, value, 1.0, Identity)
  {
  }

  /** The tint observer: a selected view repaints icon and title. */
  function SetTint(v: ItemView, c: Color): (r: ItemView)
    ensures r.tint == c && r.selected == v.selected && r.inactive == v.inactive
    ensures ColoursConsistent(v) ==> ColoursConsistent(r)
    ensures !v.selected ==> r == v.(tint := c)
    ensures v.selected ==> r == v.(tint := c, iconColor := Some(c), titleColor := Some(c))
    ensures r.frames == v.frames && r.badge == v.badge && r.item == v.item
  {
    if v.selected then v.(tint := c, iconColor := Some(c), titleColor := Some(c)) else v.(tint := c)
  }

  /** The inactive-colour observer: an unselected view repaints icon and title. */
  function SetInactive(v: ItemView, c: Option<Color>): (r: ItemView)
    ensures r.inactive == c && r.selected == v.selected && r.tint == v.tint
    ensures ColoursConsistent(v) ==> ColoursConsistent(r)
    ensures v.selected ==> r == v.(inactive := c)
    ensures !v.selected ==> r == v.(inactive := c, iconColor := c, titleColor := c)
    ensures r.frames == v.frames && r.badge == v.badge && r.item == v.item
  {
    if !v.selected then v.(inactive := c, iconColor := c, titleColor := c) else v.(inactive := c)
  }

  /** The font observer: the title uses the given font or the default one. */
  function SetFont(v: ItemView, f: Option<Font>): (r: ItemView)
    ensures r.font == f
    ensures f.Some? ==> r.titleFont == f.value
    ensures f.None? ==> r.titleFont == DefaultTitleFont
    ensures r == v.(font := f, titleFont := r.titleFont)
  {
    v.(font := f, titleFont := f.GetOr(DefaultTitleFont))
  }
}

=== FILE: items.dfy ===
/** What one tab displays: the item, its badge and the title modes.
    Colours, images, fonts and hosted views are opaque tokens compared by
    identity. */
module Items {
  import opened Wrappers
  import opened Geometry

  datatype Color = Named(id: nat) | Gray(white: real, alpha: real)

  datatype Image = Image(id: nat)

  datatype Font = SystemFont(size: nat) | CustomFont(id: nat)

  /** A host-supplied view embedded in a tab in place of title and icon. */
  datatype CustomView = CustomView(id: nat, frame: Rect)

  datatype Badge = Badge(backgroundColor: Color, textColor: Color, value: string)

  /** When a tab shows its title text. */
  datatype TitleState = ShowWhenActive | AlwaysShow | AlwaysHide

  /** Displacement of a custom view from the centre of its tab. */
  datatype Offset = Offset(horizontal: real, vertical: real)

  const NoOffset := Offset(0.0, 0.0)

  datatype Item = Item(
    title: Option<string>,
    icon: Option<Image>,
    badge: Option<Badge>,
    customView: Option<CustomView>,
    offset: Offset,
    selectable: bool,
    barBackgroundColor: Option<Color>)

  /** An item shows either a custom view, or a title together with an icon:
      never both and never neither. */
  predicate WellFormed(item: Item) {
    if item.customView.Some? then item.title.None? && item.icon.None?
    else item.title.Some? && item.icon.Some?
  }

  /** The title-and-icon initialiser: selectable, with a bar colour. */
  function TitledItem(title: string, icon: Image, badge: Badge, color: Color): (r: Item)
    ensures WellFormed(r) && r.customView.None?
    ensures r.title == Some(title) && r.icon == Some(icon) && r.badge == Some(badge)
    ensures r.selectable && r.barBackgroundColor == Some(color)
  {
    Item(Some(title), Some(icon), Some(badge), None, NoOffset, true, Some(color))
  }

  /** The custom-view initialiser: selectable, with no bar colour and no badge. */
  function CustomItem(view: CustomView, offset: Offset): (r: Item)
    ensures WellFormed(r) && r.customView == Some(view) && r.offset == offset
    ensures r.badge.None? && r.selectable && r.barBackgroundColor.None?
  {
    Item(None, None, None, Some(view), offset, true, None)
  }
}

=== FILE: scenarios.dfy ===
/** Concrete runs of the bar: three tabs of which the middle one cannot be
    selected. */
module Scenarios {
  import opened Wrappers
  import opened Items
  import opened TabBar

  const Red := Named(1)
  const Blue := Named(2)
  const Tint := Named(3)

  function Tab(id: nat, selectable: bool, color: Color): Item {
    TitledItem("tab", Image(id), Badge(Blue, Red, ""), color).(selectable := selectable)
  }

  /** Tabs A and C are selectable, B is not; C's bar colour is red. */
  function ThreeTabs(): seq<Item> {
    [Tab(0, true, Blue), Tab(1, false, Blue), Tab(2, true, Red)]
  }

  function ThreeTabBar(): (r: Bar)
    ensures |r.views| == 3 && r.current.None? && !r.colored && SelectionAgrees(r)
    ensures forall k :: 0 <= k < 3 ==> r.views[k].item == ThreeTabs()[k]
  {
    New(ThreeTabs(), AlwaysShow, Tint).value
  }

  /** Selecting A, then B, then C: A is chosen, B is skipped without a
      notification, C replaces A. */
  lemma SkippingANonSelectableTab()
    ensures var t1 := SelectItem(ThreeTabBar(), 0, true);
            var t2 := SelectItem(t1.bar, 1, true);
            var t3 := SelectItem(t2.bar, 2, true);
            && t1.events == [TabSelected(0)] && t1.bar.views[0].selected
            && t2.events == [] && t2.bar.current == Some(0)
            && t3.events == [TabSelected(2)] && !t3.bar.views[0].selected && t3.bar.views[2].selected
  {
  }

  /** In colored mode, selecting C paints the bar red; leaving colored
      mode restores the uncolored background. */
  lemma ColoredFollowsSelection()
    ensures SetColored(ThreeTabBar(), true).Ok?
    ensures var t := SelectItem(SetColored(ThreeTabBar(), true).value, 2, true);
            && t.bar.background == Some(Red)
            && SetColored(t.bar, false) == Ok(t.bar.(colored := false, background := Some(DefaultUncolored)))
  {
  }
}

=== FILE: tab_bar.dfy ===
/** The tab bar: an ordered row of item views, the selection state machine
    and its delegate notifications, show/hide, equal-width layout, badge
    changes and the property observers that fan out to the item views. */
module TabBar {
  import opened Wrappers
  import opened Geometry
  import opened Items
  import opened ItemViews

  /** The bar's initial uncolored background: white at 80% opacity. */
  const DefaultUncolored := Gray(1.0, 0.8)

  /** A call of the delegate's `tabSelected`. */
  datatype Event = TabSelected(index: int)

  /** Failures of the colored observer: an index outside the item list, or
      a selected item without a bar colour. */
  datatype Fault = IndexOutOfRange(index: int) | MissingBarColor(index: int)

  datatype Bar = Bar(
    views: seq<ItemView>,
    current: Option<int>,     // may hold an out-of-range index, such as -1
    titleState: TitleState,
    colored: bool,
    uncolored: Color,
    background: Option<Color>,
    tint: Color,
    inactive: Option<Color>,
    font: Option<Font>,
    frame: Rect,
    positionY: real,          // y recorded by the last hide
    hidden: bool)

  /** A bar after an operation, with the notifications it sent, in order. */
  datatype Transition = Transition(bar: Bar, events: seq<Event>)

  function HostOf(b: Bar): Host {
    Host(b.titleState, b.colored, b.uncolored, b.background)
  }

  predicate InRange(b: Bar, i: int) {
    0 <= i < |b.views|
  }

  /** Exactly the view at the current index is selected. */
  predicate SelectionAgrees(b: Bar) {
    forall k :: 0 <= k < |b.views| ==> (b.views[k].selected <==> b.current == Some(k))
  }

  predicate NoneSelected(vs: seq<ItemView>) {
    forall k :: 0 <= k < |vs| ==> !vs[k].selected
  }

  /** Selecting `i` is a genuine change: in range, selectable, not current. */
  predicate Changes(b: Bar, i: int) {
    InRange(b, i) && b.views[i].item.selectable && b.current != Some(i)
  }

  /** Frames of a view at rest: its title mode's row of the table, except a
      selected view under ShowWhenActive, which sits on the AlwaysShow row. */
  function SettledFrames(ts: TitleState, v: ItemView): Frames {
    Table(if v.selected && ts == ShowWhenActive then AlwaysShow else ts, v.frame.width, v.frame.height)
  }

  predicate FramesSettled(b: Bar) {
    forall k :: 0 <= k < |b.views| ==> b.views[k].frames == SettledFrames(b.titleState, b.views[k])
  }

  // ---------------------------------------------------------------------
  // Passes over the item views

  /** The two loops that visit every item view in order: the selection
      loop (deselect the previous view, then select the target), and the
      title-mode loop (recompute frames, then reselect the current view). */
  datatype Pass =
    | Reselect(previous: Option<int>, target: int, animated: bool)
    | Restyle(current: Option<int>)

  /** Whether the pass leaves the view at `j` selected. */
  predicate Selects(p: Pass, j: int) {
    match p
    case Reselect(_, target, _) => j == target
    case Restyle(current) => current == Some(j)
  }

  /** The index whose view the pass selects with animation, which is the
      only step that writes the bar's background. */
  function Raises(p: Pass): Option<int> {
    match p
    case Reselect(_, target, animated) => if animated then Some(target) else None
    case Restyle(current) => current
  }

  /** The pass's work on the view at index `j`. */
  function Step(p: Pass, v: ItemView, j: int, host: Host): (r: Effect)
    ensures r.view.item == v.item && r.view.content == v.content && r.view.frame == v.frame
    ensures r.view.tint == v.tint && r.view.inactive == v.inactive && r.view.badge == v.badge
    ensures r.view.font == v.font && r.view.titleFont == v.titleFont
    ensures r.view.selected == Selects(p, j) && ColoursConsistent(r.view)
    ensures r.background == if Raises(p) == Some(j) then RaisedBackground(v.item, host) else host.background
    ensures p.Reselect? && !(p.animated && host.titleState == ShowWhenActive) ==> r.view.frames == v.frames
    ensures p.Reselect? && p.animated && host.titleState == ShowWhenActive ==>
              var f := if p.previous == Some(j) then Lowered(v.frames, v.frame.height) else v.frames;
              r.view.frames == if j == p.target then Raised(f) else f
    ensures p.Restyle? ==>
              var f := Table(host.titleState, v.frame.width, v.frame.height);
              r.view.frames == if p.current == Some(j) && host.titleState == ShowWhenActive then Raised(f) else f
  {
    match p
    case Reselect(previous, target, animated) =>
      SetSelected(DeSelected(v, previous == Some(j), animated, host.titleState), j == target, animated, host)
    case Restyle(current) =>
      SetSelected(SetFrames(v, host.titleState), current == Some(j), true, host)
  }

  datatype Swept = Swept(views: seq<ItemView>, background: Option<Color>)

  /** The background a pass leaves from position `from` on: that of the one
      animated selection if it falls in the remaining range, else unchanged. */
  function SweptBackground(vs: seq<ItemView>, from: nat, p: Pass, host: Host): Option<Color> {
    match Raises(p)
    case Some(t) => if from <= t < |vs| then RaisedBackground(vs[t].item, host) else host.background
    case None => host.background
  }

  /** Runs the pass over the views from position `from` to the end, in
      order, threading the bar's background through the steps. */
  function Sweep(vs: seq<ItemView>, from: nat, p: Pass, host: Host): (r: Swept)
    requires from <= |vs|
    ensures |r.views| == |vs|
    ensures forall j :: 0 <= j < from ==> r.views[j] == vs[j]
    ensures forall j :: from <= j < |vs| ==> r.views[j] == Step(p, vs[j], j, host).view
    ensures r.background == SweptBackground(vs, from, p, host)
    decreases |vs| - from
  {
    if from == |vs| then Swept(vs, host.background)
    else
      var e := Step(p, vs[from], from, host);
      Sweep(vs[from := e.view], from + 1, p, host.(background := e.background))
  }

  // ---------------------------------------------------------------------
  // Construction and selection

  /** Builds one view per item, in order, stopping at the first malformed item. */
  function MakeViews(items: seq<Item>, tint: Color): (r: Result<seq<ItemView>, ConfigError>)
    ensures r.Ok? <==> forall k :: 0 <= k < |items| ==> WellFormed(items[k])
    ensures r.Ok? ==> |r.value| == |items|
    ensures r.Ok? ==> forall k :: 0 <= k < |items| ==> Make(items[k], tint) == Ok(r.value[k])
    ensures r.Err? ==> exists k :: 0 <= k < |items| && Make(items[k], tint) == Err(r.error)
                                   && forall j :: 0 <= j < k ==> WellFormed(items[j])
    decreases |items|
  {
    if items == [] then Ok([])
    else
      var v :- Make(items[0], tint);
      var rest :- MakeViews(items[1..], tint);
      Ok([v] + rest)
  }

  /** A new bar: one view per item, nothing selected, not colored, shown. */
  function New(items: seq<Item>, titleState: TitleState, tint: Color): (r: Result<Bar, ConfigError>)
    ensures r.Ok? <==> forall k :: 0 <= k < |items| ==> WellFormed(items[k])
    ensures r.Ok? ==> |r.value.views| == |items|
                      && (forall k :: 0 <= k < |items| ==> r.value.views[k].item == items[k])
    ensures r.Ok? ==> r.value.current == None && SelectionAgrees(r.value)
    ensures r.Ok? ==> forall k :: 0 <= k < |items| ==> Make(items[k], tint) == Ok(r.value.views[k])
    ensures r.Ok? ==> !r.value.colored && r.value.background == Some(DefaultUncolored) && !r.value.hidden
    ensures r.Ok? ==> r.value.titleState == titleState && r.value.tint == tint
                      && r.value.uncolored == DefaultUncolored
                      && r.value.inactive.None? && r.value.font.None?
                      && r.value.frame == Zero && r.value.positionY == 0.0
  {
    var vs :- MakeViews(items, tint);
    Ok(Bar(vs, None, titleState, false, DefaultUncolored, Some(DefaultUncolored), tint,
           None, None, Zero, 0.0, false))
  }

  /** The selection loop over every view, after which `i` is current: only
      view `i` is selected, each view keeps everything but its flag, colours
      and frames, and frames move only in an animated ShowWhenActive pass. */
  function Reselection(b: Bar, i: int, animated: bool): (r: Bar)
    ensures |r.views| == |b.views| && r.current == Some(i)
    ensures r == b.(views := r.views, current := Some(i), background := r.background)
    ensures r.background == if animated && InRange(b, i) then RaisedBackground(b.views[i].item, HostOf(b))
                            else b.background
    ensures forall k :: 0 <= k < |b.views| ==>
              (r.views[k].selected <==> k == i) && ColoursConsistent(r.views[k])
              && r.views[k] == b.views[k].(selected := r.views[k].selected,
                                           iconColor := r.views[k].iconColor,
                                           titleColor := r.views[k].titleColor,
                                           frames := r.views[k].frames)
    ensures !animated || b.titleState != ShowWhenActive ==>
              forall k :: 0 <= k < |b.views| ==> r.views[k].frames == b.views[k].frames
    ensures animated && b.titleState == ShowWhenActive ==>
              forall k :: 0 <= k < |b.views| ==>
                r.views[k].frames == if k == i then Raised(b.views[k].frames)
                                     else if b.current == Some(k) then Lowered(b.views[k].frames, b.views[k].frame.height)
                                     else b.views[k].frames
  {
    var s := Sweep(b.views, 0, Reselect(b.current, i, animated), HostOf(b));
    b.(views := s.views, background := s.background, current := Some(i))
  }

  /** Selects the item at `i`. An out-of-range index (the sentinel -1 among
      them) deselects every view and is stored as the current index; a
      non-selectable or already current item changes nothing; otherwise
      the views are reselected, `i` becomes current and the delegate hears
      of it once. */
  function SelectItem(b: Bar, i: int, animated: bool): (r: Transition)
    ensures |r.bar.views| == |b.views|
    ensures forall k :: 0 <= k < |b.views| ==> r.bar.views[k].item == b.views[k].item
    ensures r.bar == b.(views := r.bar.views, current := r.bar.current, background := r.bar.background)
    ensures r.events == if Changes(b, i) then [TabSelected(i)] else []
    ensures !InRange(b, i) ==> r.bar.current == Some(i) && NoneSelected(r.bar.views)
                               && r.bar.background == b.background
    ensures InRange(b, i) && !Changes(b, i) ==> r.bar == b
    ensures Changes(b, i) ==> r.bar.current == Some(i)
                              && forall k :: 0 <= k < |b.views| ==> (r.bar.views[k].selected <==> k == i)
    ensures Changes(b, i) ==> r.bar.background == if animated then RaisedBackground(b.views[i].item, HostOf(b))
                                                  else b.background
    ensures SelectionAgrees(b) ==> SelectionAgrees(r.bar)
    ensures !InRange(b, i) || Changes(b, i) ==>
              forall k :: 0 <= k < |b.views| ==>
                ColoursConsistent(r.bar.views[k])
                && r.bar.views[k] == b.views[k].(selected := r.bar.views[k].selected,
                                                 iconColor := r.bar.views[k].iconColor,
                                                 titleColor := r.bar.views[k].titleColor,
                                                 frames := r.bar.views[k].frames)
    ensures !animated || b.titleState != ShowWhenActive ==>
              forall k :: 0 <= k < |b.views| ==> r.bar.views[k].frames == b.views[k].frames
    ensures animated && b.titleState == ShowWhenActive && (!InRange(b, i) || Changes(b, i)) ==>
              forall k :: 0 <= k < |b.views| ==>
                r.bar.views[k].frames == if k == i then Raised(b.views[k].frames)
                                         else if b.current == Some(k) then Lowered(b.views[k].frames, b.views[k].frame.height)
                                         else b.views[k].frames
  {
    if i < 0 || i >= |b.views| then
      Transition(Reselection(b, i, animated), [])
    else if !b.views[i].item.selectable then
      Transition(b, [])
    else if b.current == Some(i) then
      Transition(b, [])
    else
      Transition(Reselection(b, i, animated), [TabSelected(i)])
  }

  /** A tap on the view at `i` selects it with animation. */
  function ItemTapped(b: Bar, i: int): (r: Transition)
    requires InRange(b, i)
    ensures |r.bar.views| == |b.views|
    ensures forall k :: 0 <= k < |b.views| ==> r.bar.views[k].item == b.views[k].item
    ensures r.events == [] ==> r.bar == b
    ensures r.events == if b.views[i].item.selectable && b.current != Some(i) then [TabSelected(i)] else []
    ensures r.bar.current == if b.views[i].item.selectable then Some(i) else b.current
    ensures r.events != [] ==>
              r.bar.background == RaisedBackground(b.views[i].item, HostOf(b))
              && forall k :: 0 <= k < |b.views| ==> (r.bar.views[k].selected <==> k == i)
    ensures r.bar == b.(views := r.bar.views, current := r.bar.current, background := r.bar.background)
    ensures r.events != [] ==> forall k :: 0 <= k < |b.views| ==> ColoursConsistent(r.bar.views[k])
    ensures forall k :: 0 <= k < |b.views| ==>
              r.bar.views[k] == b.views[k].(selected := r.bar.views[k].selected,
                                           iconColor := r.bar.views[k].iconColor,
                                           titleColor := r.bar.views[k].titleColor,
                                           frames := r.bar.views[k].frames)
  {
    SelectItem(b, i, true)
  }

  /** Replaces the item list with fresh views and forces the no-selection
      sentinel -1. The new views inherit the bar's tint but not its
      inactive colour or font. */
  function SetItems(b: Bar, items: seq<Item>): (r: Result<Bar, ConfigError>)
    ensures r.Ok? <==> forall k :: 0 <= k < |items| ==> WellFormed(items[k])
    ensures r.Ok? ==> |r.value.views| == |items|
                      && (forall k :: 0 <= k < |items| ==> r.value.views[k].item == items[k])
    ensures r.Ok? ==> r.value.current == Some(-1) && NoneSelected(r.value.views) && SelectionAgrees(r.value)
    ensures r.Ok? ==> forall k :: 0 <= k < |items| ==>
                        ColoursConsistent(r.value.views[k]) && r.value.views[k].tint == b.tint
                        && r.value.views[k].inactive.None? && r.value.views[k].font.None?
    ensures r.Ok? ==> r.value == b.(views := r.value.views, current := Some(-1))
    ensures r.Ok? ==> forall k :: 0 <= k < |items| ==>
              Make(items[k], b.tint).Ok?
              && r.value.views[k] == Make(items[k], b.tint).value.(iconColor := None, titleColor := None,
                                                                 frames := r.value.views[k].frames)
    ensures r.Ok? ==> forall k :: 0 <= k < |items| ==>
              r.value.views[k].frames == if b.titleState == ShowWhenActive && b.current == Some(k)
                                         then Lowered(Frames(Zero, Zero, Zero), 0.0)
                                         else Frames(Zero, Zero, Zero)
  {
    var vs :- MakeViews(items, b.tint);
    Ok(SelectItem(b.(views := vs), -1, true).bar)
  }

  // ---------------------------------------------------------------------
  // Show and hide

  /** Slides the bar down by its height, recording where it was; does
      nothing while hidden. */
  function Hide(b: Bar): (r: Bar)
    ensures r.hidden
    ensures b.hidden ==> r == b
    ensures !b.hidden ==> r.positionY == b.frame.y && r.frame == b.frame.(y := b.frame.y + b.frame.height)
    ensures r == b.(hidden := true, positionY := r.positionY, frame := r.frame)
  {
    if !b.hidden then b.(positionY := b.frame.y, hidden := true, frame := b.frame.(y := b.frame.y + b.frame.height))
    else b
  }

  /** Slides the bar back to the recorded y; does nothing while shown. */
  function Show(b: Bar): (r: Bar)
    ensures !r.hidden
    ensures !b.hidden ==> r == b
    ensures b.hidden ==> r.frame == b.frame.(y := b.positionY)
    ensures r == b.(hidden := false, frame := r.frame)
  {
    if b.hidden then b.(hidden := false, frame := b.frame.(y := b.positionY)) else b
  }

  lemma HideIdempotent(b: Bar)
    ensures Hide(Hide(b)) == Hide(b)
  {
  }

  lemma ShowIdempotent(b: Bar)
    ensures Show(Show(b)) == Show(b)
  {
  }

  /** Hiding a shown bar and showing it again returns it to its frame. */
  lemma ShowUndoesHide(b: Bar)
    requires !b.hidden
    ensures Show(Hide(b)) == b.(positionY := b.frame.y)
    ensures Show(Hide(b)).frame == b.frame
  {
  }

  // ---------------------------------------------------------------------
  // Layout and badges

  /** The frame of slice `i` of `n` equal slices of a bar `width` wide. */
  function Slice(width: real, height: real, n: nat, i: nat): Rect
    requires n > 0
  {
    var w := width / n as real;
    Rect(w * i as real, 0.0, w, height)
  }

  /** Gives each item view an equal-width, full-height slice, left to right. */
  function Layout(b: Bar): (r: Bar)
    ensures |r.views| == |b.views| && r == b.(views := r.views)
    ensures forall i :: 0 <= i < |b.views| ==>
              r.views[i] == b.views[i].(frame := Slice(b.frame.width, b.frame.height, |b.views|, i))
  {
    if |b.views| == 0 then b
    else
      var n := |b.views|;
      b.(views := seq(n, i requires 0 <= i < n => b.views[i].(frame := Slice(b.frame.width, b.frame.height, n, i))))
  }

  /** Consecutive slices abut: slice `i - 1` ends where slice `i` starts. */
  lemma SlicesAbut(width: real, height: real, n: nat, i: nat)
    requires 0 < i < n
    ensures Slice(width, height, n, i - 1).MaxX() == Slice(width, height, n, i).x
  {
  }

  /** The last of `n` slices ends at the full width. */
  lemma LastSliceEndsAtWidth(width: real, height: real, n: nat)
    requires n > 0
    ensures Slice(width, height, n, n - 1).MaxX() == width
    ensures Slice(width, height, n, n - 1).width * n as real == width
  {
  }

  /** The slices tile the bar: equal widths, the first at 0, each starting
      where the previous ends, the last ending at the bar's width. */
  lemma SlicesTile(b: Bar)
    requires |b.views| > 0
    ensures Layout(b).views[0].frame.x == 0.0
    ensures forall i :: 0 <= i < |b.views| ==>
              Layout(b).views[i].frame.y == 0.0 && Layout(b).views[i].frame.height == b.frame.height
              && Layout(b).views[i].frame.width == Layout(b).views[0].frame.width
    ensures forall i :: 0 < i < |b.views| ==>
              Layout(b).views[i - 1].frame.MaxX() == Layout(b).views[i].frame.x
    ensures Layout(b).views[|b.views| - 1].frame.MaxX() == b.frame.width
  {
  }

  /** Changes the badge of the view at `index` only. */
  function ChangeBadgeItem(b: Bar, index: int, value: string): (r: Bar)
    ensures |r.views| == |b.views| && r == b.(views := r.views)
    ensures forall j :: 0 <= j < |b.views| && j != index ==> r.views[j] == b.views[j]
    ensures InRange(b, index) ==> r.views[index] == SetBadge(b.views[index], value)
    ensures !InRange(b, index) ==> r == b
  {
    if !InRange(b, index) then b
    else b.(views := b.views[index := SetBadge(b.views[index], value)])
  }

  /** Clearing a badge and then setting a value shows that value on that
      tab only, and selection, colours and frames of every tab are kept. */
  lemma ChangeBadgeShowsValue(b: Bar, index: int, value: string)
    requires InRange(b, index) && b.views[index].badge.attached && value != ""
    ensures var r := ChangeBadgeItem(ChangeBadgeItem(b, index, ""), index, value);
            && BadgeVisible(r.views[index])
            && r.views[index].badge == BadgeLabel(true, value, 1.0, Identity)
            && r.views[index] == b.views[index].(badge := r.views[index].badge)
            && r.current == b.current
            && forall j :: 0 <= j < |b.views| && j != index ==> r.views[j] == b.views[j]
  {
  }

  // ---------------------------------------------------------------------
  // Property observers

  /** The title-mode loop over every view: each view takes its table row,
      the current one raised under ShowWhenActive, and is reselected. */
  function Restyling(b: Bar, ts: TitleState): (r: Bar)
    ensures r.titleState == ts && |r.views| == |b.views|
    ensures r == b.(titleState := ts, views := r.views, background := r.background)
    ensures forall k :: 0 <= k < |b.views| ==>
              (r.views[k].selected <==> b.current == Some(k)) && ColoursConsistent(r.views[k])
              && r.views[k] == b.views[k].(selected := r.views[k].selected,
                                           iconColor := r.views[k].iconColor,
                                           titleColor := r.views[k].titleColor,
                                           frames := r.views[k].frames)
              && r.views[k].frames == (var f := Table(ts, b.views[k].frame.width, b.views[k].frame.height);
                                       if b.current == Some(k) && ts == ShowWhenActive then Raised(f) else f)
    ensures r.background == match b.current
                            case Some(k) => if InRange(b, k) then RaisedBackground(b.views[k].item, HostOf(r))
                                            else b.background
                            case None => b.background
  {
    var host := HostOf(b.(titleState := ts));
    var s := Sweep(b.views, 0, Restyle(b.current), host);
    b.(titleState := ts, views := s.views, background := s.background)
  }

  /** Changes the title mode: every view recomputes its frames and the
      current view is reselected with animation. */
  function SetTitleState(b: Bar, ts: TitleState): (r: Bar)
    ensures r.titleState == ts && |r.views| == |b.views|
    ensures r == b.(titleState := ts, views := r.views, background := r.background)
    ensures forall k :: 0 <= k < |b.views| ==>
              r.views[k].item == b.views[k].item && ColoursConsistent(r.views[k])
              && (r.views[k].selected <==> b.current == Some(k))
              && r.views[k] == b.views[k].(selected := r.views[k].selected,
                                           iconColor := r.views[k].iconColor,
                                           titleColor := r.views[k].titleColor,
                                           frames := r.views[k].frames)
    ensures FramesSettled(r)
    ensures r.background == match b.current
                            case Some(k) => if InRange(b, k) then RaisedBackground(b.views[k].item, HostOf(r))
                                            else b.background
                            case None => b.background
  {
    Restyling(b, ts)
  }

  /** The tint observer: every view takes the new tint. */
  function SetTint(b: Bar, c: Color): (r: Bar)
    ensures |r.views| == |b.views| && r == b.(tint := c, views := r.views)
    ensures forall k :: 0 <= k < |b.views| ==>
              r.views[k].tint == c && r.views[k].selected == b.views[k].selected
              && r.views[k].inactive == b.views[k].inactive
              && (ColoursConsistent(b.views[k]) ==> ColoursConsistent(r.views[k]))
    ensures forall k :: 0 <= k < |b.views| ==> r.views[k] == ItemViews.SetTint(b.views[k], c)
  {
    b.(tint := c, views := seq(|b.views|, k requires 0 <= k < |b.views| => ItemViews.SetTint(b.views[k], c)))
  }

  /** The inactive-colour observer: every view takes the new inactive colour. */
  function SetInactive(b: Bar, c: Option<Color>): (r: Bar)
    ensures |r.views| == |b.views| && r == b.(inactive := c, views := r.views)
    ensures forall k :: 0 <= k < |b.views| ==>
              r.views[k].inactive == c && r.views[k].selected == b.views[k].selected
              && r.views[k].tint == b.views[k].tint
              && (ColoursConsistent(b.views[k]) ==> ColoursConsistent(r.views[k]))
    ensures forall k :: 0 <= k < |b.views| ==> r.views[k] == ItemViews.SetInactive(b.views[k], c)
  {
    b.(inactive := c, views := seq(|b.views|, k requires 0 <= k < |b.views| => ItemViews.SetInactive(b.views[k], c)))
  }

  /** The font observer: every title uses the new font, or the default one. */
  function SetFont(b: Bar, f: Option<Font>): (r: Bar)
    ensures |r.views| == |b.views| && r == b.(font := f, views := r.views)
    ensures forall k :: 0 <= k < |b.views| ==>
              r.views[k].titleFont == f.GetOr(DefaultTitleFont)
              && r.views[k] == b.views[k].(font := f, titleFont := r.views[k].titleFont)
  {
    b.(font := f, views := seq(|b.views|, k requires 0 <= k < |b.views| => ItemViews.SetFont(b.views[k], f)))
  }

  /** The uncolored-background observer: applied at once unless colored. */
  function SetUncolored(b: Bar, c: Color): (r: Bar)
    ensures r.uncolored == c
    ensures !b.colored ==> r.background == Some(c)
    ensures b.colored ==> r.background == b.background
    ensures r == b.(uncolored := c, background := r.background)
  {
    if !b.colored then b.(uncolored := c, background := Some(c)) else b.(uncolored := c)
  }

  /** A new uncolored background shows at once when not colored, and as
      soon as colored mode is left otherwise. */
  lemma UncoloredAppliesWhenUncolored(b: Bar, c: Color)
    ensures !b.colored ==> SetUncolored(b, c).background == Some(c)
    ensures SetColored(SetUncolored(b, c), false).Ok?
    ensures SetColored(SetUncolored(b, c), false).value.background == Some(c)
    ensures SetColored(SetUncolored(b, c), false).value.uncolored == c
  {
  }

  /** The colored observer as the source has it: it indexes the views with
      any stored index, including the sentinel -1, and requires the item's
      bar colour to be set. Each trap of the source is an error here. */
  function SetColoredAsWritten(b: Bar, on: bool): (r: Result<Bar, Fault>)
    ensures !on ==> r == Ok(b.(colored := false, background := Some(b.uncolored)))
    ensures on && b.current.Some? && !InRange(b, b.current.value) ==> r == Err(IndexOutOfRange(b.current.value))
    ensures on && b.current.None? ==> r == Ok(b.(colored := true))
  {
    var b1 := b.(colored := on);
    if on then
      match b.current
      case None => Ok(b1)
      case Some(k) =>
        if k < 0 || k >= |b.views| then Err(IndexOutOfRange(k))
        else
          match b.views[k].item.barBackgroundColor
          case None => Err(MissingBarColor(k))
          case Some(c) => Ok(b1.(background := Some(c)))
    else Ok(b1.(background := Some(b.uncolored)))
  }

  /** The colored observer with an out-of-range current index read as "no
      selection". Turning colored mode on paints the selected item's bar
      colour, or reports that item's missing colour; turning it off
      restores the uncolored background. */
  function SetColored(b: Bar, on: bool): (r: Result<Bar, Fault>)
    ensures r.Err? <==> on && b.current.Some? && InRange(b, b.current.value)
                        && b.views[b.current.value].item.barBackgroundColor.None?
    ensures r.Err? ==> r.error == MissingBarColor(b.current.value)
    ensures r.Ok? ==> r.value == b.(colored := on, background := r.value.background)
    ensures !on ==> r.Ok? && r.value.background == Some(b.uncolored)
    ensures r.Ok? && on ==> r.value.background == match b.current
                                                  case Some(k) => if InRange(b, k) then b.views[k].item.barBackgroundColor
                                                                  else b.background
                                                  case None => b.background
  {
    var b1 := b.(colored := on);
    if on then
      match b.current
      case None => Ok(b1)
      case Some(k) =>
        if k < 0 || k >= |b.views| then Ok(b1)
        else
          match b.views[k].item.barBackgroundColor
          case None => Err(MissingBarColor(k))
          case Some(c) => Ok(b1.(background := Some(c)))
    else Ok(b1.(background := Some(b.uncolored)))
  }

  /** The two observers agree whenever the current index is absent or valid. */
  lemma ColoredAgreesOnValidIndex(b: Bar, on: bool)
    requires b.current.None? || InRange(b, b.current.value)
    ensures SetColored(b, on) == SetColoredAsWritten(b, on)
  {
  }

  /** After `SetItems` the current index is -1, so the observer as written
      traps when colored mode is switched on. */
  lemma SentinelTrapsColoredAsWritten(b: Bar, items: seq<Item>)
    requires forall k :: 0 <= k < |items| ==> WellFormed(items[k])
    ensures SetItems(b, items).Ok?
    ensures SetColoredAsWritten(SetItems(b, items).value, true) == Err(IndexOutOfRange(-1))
  {
  }

  /** After `SetItems` the corrected observer switches colored mode on and
      keeps the background. */
  lemma SentinelIsSafeForColored(b: Bar, items: seq<Item>)
    requires forall k :: 0 <= k < |items| ==> WellFormed(items[k])
    ensures SetItems(b, items).Ok?
    ensures SetColored(SetItems(b, items).value, true) == Ok(SetItems(b, items).value.(colored := true))
  {
  }

  // ---------------------------------------------------------------------
  // Properties across calls

  /** Selecting the same index twice notifies the delegate at most once,
      and the second call never does. */
  lemma SelectTwiceNotifiesOnce(b: Bar, i: int, first: bool, second: bool)
    ensures SelectItem(SelectItem(b, i, first).bar, i, second).events == []
    ensures |SelectItem(b, i, first).events + SelectItem(SelectItem(b, i, first).bar, i, second).events| <= 1
  {
  }

  /** An animated selection keeps every view at rest in its table row: the
      newly selected view rises to the AlwaysShow row under ShowWhenActive,
      the previously selected one drops back. */
  lemma SelectKeepsFramesSettled(b: Bar, i: int)
    requires SelectionAgrees(b) && FramesSettled(b)
    ensures FramesSettled(SelectItem(b, i, true).bar)
  {
  }

  /** Every tap lands on one of the `n` views. */
  predicate Within(taps: seq<int>, n: int) {
    forall k :: 0 <= k < |taps| ==> 0 <= taps[k] < n
  }

  /** Dropping the first tap keeps the rest on the views. */
  lemma TailWithin(taps: seq<int>, n: int)
    requires taps != [] && Within(taps, n)
    ensures Within(taps[1..], n)
  {
  }

  /** A run of taps, each on a view of the bar, with every notification in
      order. */
  function Taps(b: Bar, taps: seq<int>): (r: Transition)
    requires Within(taps, |b.views|)
    ensures |r.bar.views| == |b.views|
    ensures forall k :: 0 <= k < |b.views| ==> r.bar.views[k].item == b.views[k].item
    decreases |taps|
  {
    if taps == [] then Transition(b, [])
    else
      var t := ItemTapped(b, taps[0]);
      TailWithin(taps, |b.views|);
      var rest := Taps(t.bar, taps[1..]);
      Transition(rest.bar, t.events + rest.events)
  }

  /** The notification log of a run of taps names only selectable items, at
      most one per tap, and never the item current before the run first. */
  predicate LogSound(b: Bar, taps: seq<int>, r: Transition) {
    && |r.events| <= |taps|
    && (forall k :: 0 <= k < |r.events| ==>
          InRange(b, r.events[k].index) && b.views[r.events[k].index].item.selectable)
    && (r.events != [] ==> Some(r.events[0].index) != b.current)
  }

  /** The log never names the same item twice in a row, the last item named
      is current, and a run with no notification changes nothing. */
  predicate LogTracksCurrent(b: Bar, r: Transition) {
    && (forall k :: 0 < k < |r.events| ==> r.events[k - 1] != r.events[k])
    && (r.events != [] ==> r.bar.current == Some(r.events[|r.events| - 1].index))
    && (r.events == [] ==> r.bar == b)
  }

  /** A run of taps is its first tap followed by the rest. */
  lemma TapsUnfold(b: Bar, taps: seq<int>)
    requires taps != [] && Within(taps, |b.views|)
    ensures Within(taps[1..], |ItemTapped(b, taps[0]).bar.views|)
    ensures Taps(b, taps) == var t := ItemTapped(b, taps[0]);
                             var rest := Taps(t.bar, taps[1..]);
                             Transition(rest.bar, t.events + rest.events)
  {
  }

  /** What one tap contributes to the log, given as facts about its result. */
  predicate TapFacts(b: Bar, i: int, t: Transition) {
    && |t.bar.views| == |b.views|
    && (forall k :: 0 <= k < |b.views| ==> t.bar.views[k].item == b.views[k].item)
    && (t.events == [] ==> t.bar == b)
    && (t.events != [] ==> t.events == [TabSelected(i)] && t.bar.current == Some(i)
                           && InRange(b, i) && b.views[i].item.selectable && b.current != Some(i))
  }

  /** A tap on a view yields the facts the log lemmas rely on. */
  lemma TapHasFacts(b: Bar, i: int)
    requires InRange(b, i)
    ensures TapFacts(b, i, ItemTapped(b, i))
  {
  }

  /** Soundness of the log carries over from the rest of a run to the whole. */
  lemma SoundStep(b: Bar, taps: seq<int>, t: Transition, rest: Transition)
    requires taps != [] && TapFacts(b, taps[0], t)
    requires LogSound(t.bar, taps[1..], rest) && (rest.events == [] ==> rest.bar == t.bar)
    ensures LogSound(b, taps, Transition(rest.bar, t.events + rest.events))
    ensures t.events + rest.events == [] ==> rest.bar == b
  {
  }

  /** Tracking of the current item carries over from the rest of a run to the whole. */
  lemma TrackStep(b: Bar, i: int, t: Transition, rest: Transition)
    requires TapFacts(b, i, t)
    requires rest.events != [] ==> Some(rest.events[0].index) != t.bar.current
    requires LogTracksCurrent(t.bar, rest)
    ensures LogTracksCurrent(b, Transition(rest.bar, t.events + rest.events))
  {
  }

  /** Over any run of taps the delegate hears only of selectable items, at
      most once per tap, and first of an item that was not current. */
  lemma {:induction false} TapLogSound(b: Bar, taps: seq<int>)
    requires Within(taps, |b.views|)
    ensures LogSound(b, taps, Taps(b, taps))
    ensures Taps(b, taps).events == [] ==> Taps(b, taps).bar == b
    decreases |taps|
  {
    if taps != [] {
      TapsUnfold(b, taps);
      var t := ItemTapped(b, taps[0]);
      TapHasFacts(b, taps[0]);
      TapLogSound(t.bar, taps[1..]);
      SoundStep(b, taps, t, Taps(t.bar, taps[1..]));
    }
  }

  /** Over any run of taps the delegate never hears of the same item twice
      in a row, and the last item it heard of is the current one. */
  lemma {:induction false} TapLog(b: Bar, taps: seq<int>)
    requires Within(taps, |b.views|)
    ensures LogSound(b, taps, Taps(b, taps))
    ensures LogTracksCurrent(b, Taps(b, taps))
    decreases |taps|
  {
    TapLogSound(b, taps);
    if taps != [] {
      TapsUnfold(b, taps);
      var t := ItemTapped(b, taps[0]);
      TapHasFacts(b, taps[0]);
      TapLog(t.bar, taps[1..]);
      TrackStep(b, taps[0], t, Taps(t.bar, taps[1..]));
    }
  }
}

=== FILE: wrappers.dfy ===
/** Optional values and results with an error, usable with `:-`. */
module Wrappers {

  /** A value that may be absent; stands for Swift's `T?`. */
  datatype Option<+T> = None | Some(value: T) {

    /** The value if present, otherwise `default` (Swift's `??`). */
    function GetOr(default: T): T {
      match this
      case Some(v) => v
      case None => default
    }
  }

  /** Either a value or an error that a caller must handle. */
  datatype Result<+T, +E> = Ok(value: T) | Err(error: E) {

    predicate IsFailure() {
      Err?
    }

    function PropagateFailure<U>(): Result<U, E>
      requires Err?
    {
      Err(error)
    }

    function Extract(): T
      requires Ok?
    {
      value
    }
  }
}
